=== FILE: README.md ===
# Diffie-Hellman demo, modelled in Dafny

DHDemo.py is a short demonstration of Diffie-Hellman key exchange. It targets Python and
microPython. Its `DH` class holds a private key of 75 random bytes. It publishes
`2^key mod bigPrime` as a 96-byte big-endian value, where `bigPrime` is a fixed 768-bit
safe prime. It also turns a peer's published value into a 96-byte shared key.
The demo builds two parties, exchanges their public values, and asserts that the two
copies of the shared key are equal. The file also has small helpers: `bitLen`,
`bytLen`, `bigInt2Bytes`, and `chunkify`, which wraps text for printing.

This project models that logic with pure functions and proves the following:

- The two parties always derive the same shared key, for any pair of private keys.
  The general fact behind it is proved too: `(g^a mod p)^b ≡ (g^b mod p)^a (mod p)` for
  any modulus `p > 0`.
- `pubKey` and `comKey` never overflow `to_bytes`. They always return exactly 96 bytes,
  and those bytes read back as the intended residue.
- Big-endian encoding and decoding are inverse to each other in both directions.
- `bitLen` and `bytLen` are characterised by powers of 2 and 256. The model measures the
  `bin`/`hex` strings, as the code does. `bigInt2Bytes` is a minimal, exact encoding.
- `chunkify` cuts its input into the expected chunks. For a text without newlines,
  removing the line breaks from the result restores the text; if that text is also
  non-empty, the printed lines are exactly its chunks, each of 1 to `width` characters.

Modules, one per concern of the source file:

- `Results` (results.dfy): the exceptions the code can raise. These are `OverflowError`
  from `int.to_bytes` and `ValueError` from `range` with step 0.
- `Arith` (arith.dfy): the reference power `Pow` and modular-arithmetic lemmas.
- `ModExp` (modexp.dfy): three-argument `pow` as square-and-multiply `ModPow`, and the
  agreement lemma.
- `BigEndian` (bigendian.dfy): `int.from_bytes(…, "big")` as `FromBytes` and
  `int.to_bytes(width, "big")` as `ToBytes`.
- `Digits` (digits.dfy): `bin`, `hex`, `bitLen`, `bytLen`, `bigInt2Bytes`.
- `DiffieHellman` (dh.dfy): the constants `bigPrime` and `G`, the party, `pubKey`,
  `comKey`, and the demo's agreement check.
- `Chunking` (chunking.dfy): `chunkify`, as a method with a loop, plus its functional
  specification.

The OS random source is a parameter. `NewParty` takes the 75 bytes that `os.urandom(75)`
would have returned. A party is an immutable value and `PubKey` is a function of it.
So repeated `pubKey()` calls on one party give identical bytes by construction, and no
lemma is needed for this.

The code does not check that a peer's value is exactly 96 bytes long or below the
modulus, and neither does the model. `ComKey` accepts a byte string of any length and
value. Its contract shows that the result is still a well-defined 96-byte residue.
The source comment "540 bits" on the private key is inaccurate, since 75 bytes are 600
bits. The model uses the 75 bytes the code reads.

## Model

| member | source | states |
|---|---|---|
| ModExp.ModPow | DHDemo.py:36-38 | `pow(b, e, m)` for `m > 0` is below `m` and equals `b^e mod m` under the reference power |
| ModExp.Agreement | DHDemo.py:36-38 | for any modulus `p > 0`, base and exponents, `(g^a mod p)^b mod p == (g^b mod p)^a mod p` |
| ModExp.ExponentsMultiply | DHDemo.py:36-38 | raising `g^a mod p` to `b` modulo `p` gives `g^(a*b) mod p` |
| BigEndian.FromBytes | DHDemo.py:38 | `int.from_bytes(s, "big")` accepts any length and its value is below `256^len(s)` |
| BigEndian.ToBytes | DHDemo.py:36 | `n.to_bytes(w, "big")` raises OverflowError exactly when `n >= 256^w`; otherwise it gives `w` bytes that read back as `n` |
| BigEndian.ToBytesFromBytes | DHDemo.py:33 | reading bytes big-endian and writing the value back at the same width reproduces the bytes without overflow |
| BigEndian.FromBytesInjective | DHDemo.py:36-38 | two byte strings of one width that read as the same integer are identical, so the fixed-width encoding is unambiguous |
| Digits.Bin | DHDemo.py:44 | `bin(n)` is `0b` followed only by the characters `0` and `1`; they read back as `n` (with `DigitsRoundTrip`), and the first is `0` exactly when `n` is zero |
| Digits.Hex | DHDemo.py:47 | `hex(n)` is `0x` followed only by the lower-case digits `0-9a-f`; they read back as `n`, and the first is `0` exactly when `n` is zero; `DigitCount` bounds its length |
| Digits.DigitsRoundTrip | DHDemo.py:43-47 | the digits printed by `bin`/`hex` read back as the number |
| Digits.DigitCount | DHDemo.py:43-47 | the digit count `k` of `n` in a base is 1 for zero and otherwise satisfies `base^(k-1) <= n < base^k` |
| Digits.BitLen | DHDemo.py:43-44 | `len(bin(n))-2` is at least 1, `n < 2^k`, and `2^(k-1) <= n` unless `k == 1`; so `bitLen(0) == 1` |
| Digits.BytLen | DHDemo.py:46-47 | `(len(hex(n))-1)//2` is at least 1, `n < 256^k`, and `256^(k-1) <= n` unless `k == 1`; so `bytLen(0) == 1` |
| Digits.BigIntToBytes | DHDemo.py:50-51 | `bigInt2Bytes(n)` never overflows, has `bytLen(n)` bytes, reads back as `n`, and starts with a non-zero byte when `n > 0` |
| Digits.LeadingByteNonZero | DHDemo.py:50-51 | a `bytLen(n)`-byte big-endian encoding of a positive `n` has a non-zero first byte |
| DiffieHellman.NewParty | DHDemo.py:32-33 | the private key read from 75 random bytes is below `256^75`, and those bytes are exactly its 75-byte encoding |
| DiffieHellman.PubKey | DHDemo.py:35-36 | `pubKey()` never overflows and is exactly 96 bytes; it reads back as `G^key mod bigPrime`, which is below `bigPrime` |
| DiffieHellman.ComKey | DHDemo.py:37-38 | `comKey(peer)` takes bytes of any length and never overflows; the result is 96 bytes reading back as `peer^key mod bigPrime`, below `bigPrime` |
| DiffieHellman.SharedKeysAgree | DHDemo.py:83-87 | for any two parties, `alice.comKey(bob.pubKey()) == bob.comKey(alice.pubKey())` byte for byte |
| DiffieHellman.SharedKeyValue | DHDemo.py:83-84 | the shared key reads back as `G^(a*b) mod bigPrime` for the two private keys `a`, `b` |
| DiffieHellman.BigPrimeSize | DHDemo.py:26-27 | `bigPrime` has 768 significant bits and `bytLen(bigPrime)` is the 96-byte key width |
| DiffieHellman.KeySpaceIsPow | DHDemo.py:27-36 | `256^96` equals the literal one followed by 192 hexadecimal zeros, and `bigPrime` is below it, so every residue modulo `bigPrime` fits the 96 bytes `to_bytes` is asked for |
| Chunking.Chunks | DHDemo.py:63-65 | the slices taken for `range(0, len(txt), width)` number `ceil(len(txt)/width)` and concatenate back to `txt` |
| Chunking.ChunkLengths | DHDemo.py:64-65 | every chunk has 1 to `width` characters, and every chunk but the last has exactly `width` |
| Chunking.Join | DHDemo.py:66 | `sep.join(parts)` of a non-empty list is as long as the parts together plus `len(parts) - 1` separators, and starts with the first part |
| Chunking.JoinLines | DHDemo.py:66 | splitting `'\n'.join(parts)` at its line breaks (Python's `split('\n')`, modelled as `Lines`) gives back exactly the parts, for a non-empty list of line-break-free parts: the separator sits between neighbours and nowhere else |
| Chunking.Chunkify | DHDemo.py:62-66 | width 0 raises ValueError and a negative width gives ""; otherwise the result is the chunks joined by newlines; empty input gives ""; removing the newlines from a newline-free input's result restores it |
| Chunking.PrintedLines | DHDemo.py:61-66 | the lines `chunkify` prints for a non-empty, line-break-free text are exactly its chunks, so each printed line has 1 to `width` characters |
| Chunking.UnwrapRestores | DHDemo.py:66 | removing the inserted newlines from the joined chunks of a newline-free text gives the text back |

## Left out

- `os.urandom(75)` is replaced by a 75-byte parameter of `NewParty`. The quality of the randomness is not modelled.
- `b64encode`/`b64decode` come from Python's `base64` or microPython's `ubinascii` and are not modelled. `bigInt2B64` and `B642bigInt` (DHDemo.py:54-59) wrap them; their integer/byte part is `BigIntToBytes` and `FromBytes`.
- The demo driver and its printing are I/O. Only the driver's final assertion is modelled, as `SharedKeysAgree`.
- The comments claim that `bigPrime` is a safe prime and that `G` is primitive. The code never checks this, and agreement does not depend on it, so it is not proved.
- Timing behaviour and security strength are not functional properties and are not modelled.
- BitLen: modelled only for non-negative integers. `bitLen` is never called in DHDemo.py. For a negative `n`, `bin(n)` starts with `-0b`, so the source counts the sign too (`bitLen(-5) == 4`); the model drops this.
- BytLen: modelled only for non-negative integers. Its only caller is `bigInt2Bytes` (DHDemo.py:51). For a negative `n`, `hex(n)` starts with `-0x`, so the sign would be counted too.
- BigIntToBytes: modelled only for non-negative integers. The comment at DHDemo.py:49 says not to use it with negative numbers, and `to_bytes` raises OverflowError for them anyway.
- ModPow: requires a positive modulus. Python's `pow` raises ValueError for modulus 0, but the code only ever passes `bigPrime`.
- Join: splitting the result back into its parts (`JoinLines`) is proved only for the `'\n'` separator that `chunkify` uses, and only for parts without line breaks; for other inputs `split` cannot tell separators from the parts' own characters.

=== FILE: arith.dfy ===
/** Natural-number powers and the facts about `%` that modular exponentiation
    rests on. Everything here is stated for an arbitrary positive modulus. */
module Arith {

  /** The reference definition of exponentiation: `b` multiplied by itself `e` times. */
  function Pow(b: nat, e: nat): (r: nat)
    ensures b > 0 ==> r > 0
    decreases e
  {
    if e == 0 then 1 else b * Pow(b, e - 1)
  }

  lemma {:induction false} PowAdd(b: nat, e1: nat, e2: nat)
    ensures Pow(b, e1 + e2) == Pow(b, e1) * Pow(b, e2)
    decreases e1
  {
    if e1 > 0 {
      PowAdd(b, e1 - 1, e2);
      assert Pow(b, e1 + e2) == b * Pow(b, e1 - 1 + e2);
    }
  }

  lemma {:induction false} PowMul(b: nat, e1: nat, e2: nat)
    ensures Pow(b, e1 * e2) == Pow(Pow(b, e1), e2)
    decreases e2
  {
    if e2 > 0 {
      var c := Pow(b, e1);
      calc {
        Pow(b, e1 * e2);
        { assert e1 * e2 == e1 * (e2 - 1) + e1; }
        Pow(b, e1 * (e2 - 1) + e1);
        { PowAdd(b, e1 * (e2 - 1), e1); }
        Pow(b, e1 * (e2 - 1)) * c;
        { PowMul(b, e1, e2 - 1); }
        Pow(c, e2 - 1) * c;
        c * Pow(c, e2 - 1);
        Pow(c, e2);
      }
    }
  }

  /** Proof helper: the third power written out as a product. */
  lemma PowCube(b: nat)
    ensures Pow(b, 3) == b * b * b
  {
    assert Pow(b, 1) == b;
  }

  /** A number lies between consecutive powers of `b` for only one exponent: if
      `b^(k-1) <= n < b^k`, then `k` is the only `j >= 1` with `n < b^j` and
      either `j == 1` or `b^(j-1) <= n`. */
  lemma PowBracketUnique(b: nat, n: nat, j: nat, k: nat)
    requires b > 1 && j >= 1 && k >= 1
    requires n < Pow(b, j) && (j == 1 || Pow(b, j - 1) <= n)
    requires Pow(b, k - 1) <= n < Pow(b, k)
    ensures j == k
  {
    if j < k {
      PowMonotone(b, j, k - 1);
      assert false;
    } else if j > k {
      PowMonotone(b, k, j - 1);
      assert false;
    }
  }

  /** Proof helper: `b * b` as a named term, so that repeated squaring stays symbolic. */
  function Square(b: nat): nat
  {
    b * b
  }

  /** An even power is a power of the square. */
  lemma PowSquare(b: nat, e: nat)
    ensures Pow(b, 2 * e) == Pow(Square(b), e)
  {
    PowMul(b, 2, e);
    assert Pow(b, 2) == b * b;
  }

  /** Raising to a larger exponent never gives a smaller power, for a base of at least 1. */
  lemma {:induction false} PowMonotone(b: nat, e1: nat, e2: nat)
    requires b > 0 && e1 <= e2
    ensures Pow(b, e1) <= Pow(b, e2)
    decreases e2
  {
    if e1 < e2 {
      PowMonotone(b, e1, e2 - 1);
      assert Pow(b, e2) == b * Pow(b, e2 - 1);
    }
  }

  /** Division leaves a unique quotient and remainder. */
  lemma ModUnique(y: int, q: int, r: int, m: int)
    requires m > 0 && 0 <= r < m && y == q * m + r
    ensures y % m == r && y / m == q
  {
    var q', r' := y / m, y % m;
    assert y == q' * m + r';
    var d := q - q';
    assert d * m == r' - r by {
      assert q * m - q' * m == r' - r;
    }
    if d >= 1 {
      MulAtLeast(d, m);
    } else if d <= -1 {
      MulAtLeast(-d, m);
    }
  }

  lemma MulAtLeast(d: int, m: int)
    requires d >= 1 && m > 0
    ensures d * m >= m
  {
    assert d * m == (d - 1) * m + m;
  }

  lemma ModAddMultiple(k: int, x: int, m: int)
    requires m > 0
    ensures (k * m + x) % m == x % m
  {
    ModUnique(k * m + x, k + x / m, x % m, m);
  }

  /** Reducing either factor before multiplying does not change the product modulo `m`. */
  lemma MulMod(x: nat, y: nat, m: nat)
    requires m > 0
    ensures (x * y) % m == ((x % m) * (y % m)) % m
  {
    var qx, rx := x / m, x % m;
    var qy, ry := y / m, y % m;
    calc {
      x * y;
      (qx * m + rx) * (qy * m + ry);
      (qx * qy * m + qx * ry + rx * qy) * m + rx * ry;
    }
    ModAddMultiple(qx * qy * m + qx * ry + rx * qy, rx * ry, m);
  }

  lemma ModMod(x: nat, m: nat)
    requires m > 0
    ensures (x % m) % m == x % m
  {
    ModUnique(x % m, 0, x % m, m);
  }

  /** Reducing the base before exponentiating does not change the power modulo `m`. */
  lemma {:induction false} PowMod(x: nat, e: nat, m: nat)
    requires m > 0
    ensures Pow(x % m, e) % m == Pow(x, e) % m
    decreases e
  {
    if e > 0 {
      var r := x % m;
      calc {
        Pow(r, e) % m;
        (r * Pow(r, e - 1)) % m;
        { MulMod(r, Pow(r, e - 1), m); }
        ((r % m) * (Pow(r, e - 1) % m)) % m;
        { PowMod(x, e - 1, m); ModMod(x, m); }
        ((x % m) * (Pow(x, e - 1) % m)) % m;
        { MulMod(x, Pow(x, e - 1), m); }
        (x * Pow(x, e - 1)) % m;
      }
    }
  }

  /** Dividing by a base of at least 2 shrinks a number that is at least the base. */
  lemma DivSmaller(n: nat, base: nat)
    requires 2 <= base <= n
    ensures 1 <= n / base < n
    ensures n == (n / base) * base + n % base && n % base < base
  {
    var q, r := n / base, n % base;
    assert n == q * base + r;
    if q >= n {
      MulLe(n, q, base);
    }
  }

  lemma MulLe(x: nat, y: nat, c: nat)
    requires x <= y
    ensures x * c <= y * c
  {
  }
}

=== FILE: bigendian.dfy ===
/** Unsigned big-endian integers: `int.from_bytes(s, "big")` and
    `int.to_bytes(width, "big")`, including the overflow that the latter raises. */
module BigEndian {
  import opened Arith
  import opened Results

  type byte = x: int | 0 <= x < 256

  /** `int.from_bytes(s, "big")`: any length is accepted, the empty string reads as 0,
      and the value always fits in `|s|` bytes. */
  function FromBytes(s: seq<byte>): (n: nat)
    ensures n < Pow(256, |s|)
    decreases |s|
  {
    if |s| == 0 then 0
    else
      var init := FromBytes(s[..|s| - 1]);
      AppendDigitBound(init, s[|s| - 1], |s| - 1);
      init * 256 + s[|s| - 1]
  }

  /** Appending one more low-order byte to a `k`-byte value gives a `k + 1`-byte value. */
  lemma AppendDigitBound(n: nat, d: byte, k: nat)
    requires n < Pow(256, k)
    ensures n * 256 + d < Pow(256, k + 1)
  {
    assert n + 1 <= Pow(256, k);
    assert (n + 1) * 256 <= Pow(256, k) * 256;
  }

  /** The low `width` bytes of `n`, most significant first. */
  function Encode(n: nat, width: nat): (s: seq<byte>)
    ensures |s| == width
    ensures FromBytes(s) == n % Pow(256, width)
    decreases width
  {
    if width == 0 then []
    else
      var s := Encode(n / 256, width - 1) + [n % 256];
      assert s[..|s| - 1] == Encode(n / 256, width - 1);
      SplitLowByte(n, Pow(256, width - 1));
      s
  }

  /** Peeling off the low byte of `n` commutes with reduction modulo `256 * p`. */
  lemma SplitLowByte(n: nat, p: nat)
    requires p > 0
    ensures ((n / 256) % p) * 256 + n % 256 == n % (256 * p)
  {
    var q, r := (n / 256) / p, (n / 256) % p;
    assert n / 256 == q * p + r;
    assert n == (n / 256) * 256 + n % 256;
    assert n == q * (256 * p) + (r * 256 + n % 256);
    assert r * 256 + n % 256 < 256 * p by {
      assert (r + 1) * 256 <= p * 256;
    }
    ModUnique(n, q, r * 256 + n % 256, 256 * p);
  }

  /** `n.to_bytes(width, "big")`: fails with OverflowError exactly when `n` needs more
      than `width` bytes, and otherwise gives `width` bytes that read back as `n`. */
  function ToBytes(n: nat, width: nat): (r: Result<seq<byte>>)
    ensures r.Ok? <==> n < Pow(256, width)
    ensures r.Ok? ==> |r.value| == width && FromBytes(r.value) == n
    ensures r.Err? ==> r.error == OverflowError
  {
    if n < Pow(256, width) then
      ModUnique(n, 0, n, Pow(256, width));
      Ok(Encode(n, width))
    else
      Err(OverflowError)
  }

  /** Every byte string is the fixed-width encoding of the value it reads as. */
  lemma {:induction false} EncodeFromBytes(s: seq<byte>)
    ensures Encode(FromBytes(s), |s|) == s
    decreases |s|
  {
    if |s| > 0 {
      var init, last := s[..|s| - 1], s[|s| - 1];
      var n := FromBytes(s);
      assert n == FromBytes(init) * 256 + last;
      ModUnique(n, FromBytes(init), last, 256);
      EncodeFromBytes(init);
      assert s == init + [last];
    }
  }

  /** The other half of the round trip: reading a byte string and writing it back at
      its own width reproduces it, so `to_bytes` never overflows on such a value. */
  lemma ToBytesFromBytes(s: seq<byte>)
    ensures ToBytes(FromBytes(s), |s|) == Ok(s)
  {
    EncodeFromBytes(s);
  }

  /** Two byte strings of one width that read as the same value are equal. */
  lemma FromBytesInjective(s: seq<byte>, t: seq<byte>)
    requires |s| == |t| && FromBytes(s) == FromBytes(t)
    ensures s == t
  {
    EncodeFromBytes(s);
    EncodeFromBytes(t);
  }

  /** A leading zero byte contributes nothing: the value then fits in one byte fewer. */
  lemma {:induction false} LeadingZero(s: seq<byte>)
    requires |s| > 0 && s[0] == 0
    ensures FromBytes(s) == FromBytes(s[1..])
    decreases |s|
  {
    if |s| > 1 {
      var init := s[..|s| - 1];
      LeadingZero(init);
      assert init[1..] == s[1..][..|s| - 2];
    } else {
      assert s[..0] == [];
    }
  }
}

=== FILE: chunking.dfy ===
/** `chunkify(txt, width)` from DHDemo.py: cut a string into slices of `width`
    characters and join them with newlines, for printing. */
module Chunking {
  import opened Arith
  import opened Results

  /** The slices `txt[i:i+width]` for `i` in `range(0, len(txt), width)`: full slices of
      `width` characters, then whatever is left. */
  function Chunks(txt: string, width: nat): (cs: seq<string>)
    requires width > 0
    ensures |cs| == (|txt| + width - 1) / width
    ensures Concat(cs) == txt
    decreases |txt|
  {
    CeilDivStep(|txt|, width);
    if |txt| <= width then
      if |txt| == 0 then [] else assert Concat([txt]) == txt + Concat([]); [txt]
    else
      var cs := [txt[..width]] + Chunks(txt[width..], width);
      assert cs[1..] == Chunks(txt[width..], width);
      assert txt == txt[..width] + txt[width..];
      cs
  }

  /** Every chunk holds between 1 and `width` characters, and all but the last exactly `width`. */
  lemma {:induction false} ChunkLengths(txt: string, width: nat)
    requires width > 0
    ensures forall k :: 0 <= k < |Chunks(txt, width)| ==> 0 < |Chunks(txt, width)[k]| <= width
    ensures forall k :: 0 <= k < |Chunks(txt, width)| - 1 ==> |Chunks(txt, width)[k]| == width
    decreases |txt|
  {
    if |txt| > width {
      var rest := Chunks(txt[width..], width);
      ChunkLengths(txt[width..], width);
      assert Chunks(txt, width) == [txt[..width]] + rest;
    }
  }

  /** An empty text has no chunks, so `chunkify` of "" is "". */
  lemma NoChunksOfEmpty(width: nat)
    requires width > 0
    ensures Chunks([], width) == []
  {
  }

  /** The first chunk is the first `width` characters, or all of them if fewer. */
  lemma FirstChunk(txt: string, width: nat, n: nat)
    requires width > 0 && |txt| > 0
    requires n == if width <= |txt| then width else |txt|
    ensures Chunks(txt, width) == [txt[..n]] + Chunks(txt[n..], width)
  {
    if |txt| <= width {
      assert txt[..|txt|] == txt;
      assert txt[|txt|..] == [];
    }
  }

  /** How the chunk count `ceil(n / width)` changes as one chunk is cut off. */
  lemma CeilDivStep(n: nat, width: nat)
    requires width > 0
    ensures n == 0 ==> (n + width - 1) / width == 0
    ensures 0 < n <= width ==> (n + width - 1) / width == 1
    ensures n > width ==> (n + width - 1) / width == (n - width + width - 1) / width + 1
  {
    if n == 0 {
      ModUnique(width - 1, 0, width - 1, width);
    } else if n <= width {
      ModUnique(n + width - 1, 1, n - 1, width);
    } else {
      var x := n - 1;
      ModUnique(x + width, x / width + 1, x % width, width);
    }
  }

  /** All the strings of `parts`, one after another. */
  function Concat(parts: seq<string>): string
  {
    if |parts| == 0 then "" else parts[0] + Concat(parts[1..])
  }

  /** `sep.join(parts)`: the parts in order with one `sep` between neighbours, so a
      non-empty list of parts adds `|parts| - 1` separators to their concatenation. */
  function Join(parts: seq<string>, sep: string): (r: string)
    ensures |parts| > 0 ==> |r| == |Concat(parts)| + (|parts| - 1) * |sep|
    ensures |parts| > 0 ==> r[..|parts[0]|] == parts[0]
  {
    if |parts| == 0 then ""
    else if |parts| == 1 then parts[0]
    else parts[0] + sep + Join(parts[1..], sep)
  }

  /** `s.split('\n')`: the pieces between line breaks, so "" is one empty line and a
      trailing line break ends with an empty line. */
  function Lines(s: string): (ls: seq<string>)
    ensures |ls| >= 1
    decreases |s|
  {
    if |s| == 0 then [""]
    else if s[0] == '\n' then [""] + Lines(s[1..])
    else
      var ls := Lines(s[1..]);
      [[s[0]] + ls[0]] + ls[1..]
  }

  /** A line-break-free prefix joins the first line of what follows it. */
  lemma {:induction false} LinesPrefix(a: string, rest: string)
    requires '\n' !in a
    ensures Lines(a + rest) == [a + Lines(rest)[0]] + Lines(rest)[1..]
    decreases |a|
  {
    if |a| > 0 {
      assert (a + rest)[0] == a[0];
      assert (a + rest)[1..] == a[1..] + rest;
      LinesPrefix(a[1..], rest);
      assert [a[0]] + (a[1..] + Lines(rest)[0]) == a + Lines(rest)[0];
    } else {
      var ls := Lines(rest);
      assert a + rest == rest && a + ls[0] == ls[0];
      assert [ls[0]] + ls[1..] == ls;
    }
  }

  /** Splitting `'\n'.join(parts)` at its line breaks gives back the parts, when none of
      them holds a line break: the separator sits exactly between neighbours. */
  lemma {:induction false} JoinLines(parts: seq<string>)
    requires |parts| > 0
    requires forall k, c :: 0 <= k < |parts| && c in parts[k] ==> c != '\n'
    ensures Lines(Join(parts, "\n")) == parts
    decreases |parts|
  {
    if |parts| == 1 {
      LinesPrefix(parts[0], "");
      assert parts[0] + "" == parts[0];
    } else {
      var tail := parts[1..];
      assert forall k, c :: 0 <= k < |tail| && c in tail[k] ==> c != '\n' by {
        forall k, c | 0 <= k < |tail| && c in tail[k]
          ensures c != '\n'
        {
          assert tail[k] == parts[k + 1];
        }
      }
      JoinLines(tail);
      var rest := "\n" + Join(tail, "\n");
      assert rest[1..] == Join(tail, "\n");
      assert Lines(rest) == [""] + tail;
      assert parts[0] + "\n" + Join(tail, "\n") == parts[0] + rest;
      LinesPrefix(parts[0], rest);
      assert parts[0] + "" == parts[0];
      assert [parts[0]] + tail == parts;
    }
  }

  /** The lines `chunkify` prints for a non-empty, line-break-free text are exactly its
      chunks, so every printed line has between 1 and `width` characters. */
  lemma PrintedLines(txt: string, width: nat)
    requires width > 0 && |txt| > 0 && '\n' !in txt
    ensures Lines(Join(Chunks(txt, width), "\n")) == Chunks(txt, width)
    ensures forall k :: 0 <= k < |Lines(Join(Chunks(txt, width), "\n"))| ==>
      0 < |Lines(Join(Chunks(txt, width), "\n"))[k]| <= width
  {
    ChunksFromText(txt, width);
    ChunkLengths(txt, width);
    JoinLines(Chunks(txt, width));
  }

  /** `s` with every occurrence of `c` removed. */
  function Remove(s: string, c: char): string
  {
    if |s| == 0 then ""
    else (if s[0] == c then "" else [s[0]]) + Remove(s[1..], c)
  }

  /** `chunkify(txt, width)`. A zero `width` makes `range` raise ValueError; a negative
      `width` makes the range from 0 up to `len(txt)` empty, so the result is "". */
  method Chunkify(txt: string, width: int) returns (r: Result<string>)
    ensures width == 0 ==> r == Err(ValueError)
    ensures width < 0 ==> r == Ok("")
    ensures width > 0 ==> r == Ok(Join(Chunks(txt, width), "\n"))
    ensures width != 0 && |txt| == 0 ==> r == Ok("")
    ensures width > 0 && '\n' !in txt ==> r.Ok? && Remove(r.value, '\n') == txt
  {
    if width == 0 {
      return Err(ValueError);
    }
    if width < 0 {
      return Ok("");
    }
    var chunks: seq<string> := [];
    var i := 0;
    while i < |txt|
      invariant 0 <= i
      invariant i < |txt| ==> chunks + Chunks(txt[i..], width) == Chunks(txt, width)
      invariant i >= |txt| ==> chunks == Chunks(txt, width)
      decreases |txt| - i
    {
      var end := if i + width <= |txt| then i + width else |txt|;
      ChunkStep(txt, width, i, end, chunks);
      chunks := chunks + [txt[i..end]];
      i := i + width;
    }
    if '\n' !in txt {
      UnwrapRestores(txt, width);
    }
    return Ok(Join(chunks, "\n"));
  }

  /** One loop iteration: appending the slice `txt[i:end]` moves one chunk from the
      chunks still to come to the chunks collected. */
  lemma ChunkStep(txt: string, width: nat, i: nat, end: nat, chunks: seq<string>)
    requires width > 0 && i < |txt|
    requires end == if i + width <= |txt| then i + width else |txt|
    requires chunks + Chunks(txt[i..], width) == Chunks(txt, width)
    ensures end < |txt| ==> (chunks + [txt[i..end]]) + Chunks(txt[end..], width) == Chunks(txt, width)
    ensures end == |txt| ==> chunks + [txt[i..end]] == Chunks(txt, width)
  {
    NextChunk(txt, width, i, end);
    var c, rest := txt[i..end], Chunks(txt[end..], width);
    MoveChunk(chunks, c, rest, Chunks(txt, width));
    if end == |txt| {
      NoChunksAfterEnd(txt, width, chunks + [c]);
    }
  }

  /** Moving the next chunk from the pending chunks to the collected ones keeps their sum. */
  lemma MoveChunk(done: seq<string>, c: string, rest: seq<string>, all: seq<string>)
    requires done + ([c] + rest) == all
    ensures (done + [c]) + rest == all
  {
    assert done + ([c] + rest) == (done + [c]) + rest;
  }

  /** The chunks from position `i` on are the slice `txt[i:end]` and then the chunks from `end` on. */
  lemma NextChunk(txt: string, width: nat, i: nat, end: nat)
    requires width > 0 && i < |txt|
    requires end == if i + width <= |txt| then i + width else |txt|
    ensures Chunks(txt[i..], width) == [txt[i..end]] + Chunks(txt[end..], width)
  {
    var t, n := txt[i..], end - i;
    FirstChunk(t, width, n);
    assert t[..n] == txt[i..end];
    assert t[n..] == txt[end..];
  }

  /** Once the whole text is cut, no chunks remain to be appended. */
  lemma NoChunksAfterEnd(txt: string, width: nat, done: seq<string>)
    requires width > 0
    ensures done + Chunks(txt[|txt|..], width) == done
  {
    assert txt[|txt|..] == [];
    NoChunksOfEmpty(width);
    assert done + [] == done;
  }

  /** Stripping the inserted newlines from `chunkify`'s output restores a newline-free
      input: the wrapping only inserts line breaks. */
  lemma UnwrapRestores(txt: string, width: nat)
    requires width > 0 && '\n' !in txt
    ensures Remove(Join(Chunks(txt, width), "\n"), '\n') == txt
  {
    var cs := Chunks(txt, width);
    ChunksFromText(txt, width);
    JoinRemove(cs);
    RemoveAbsent(txt, '\n');
  }

  /** Every character of every chunk is a character of the text. */
  lemma {:induction false} ChunksFromText(txt: string, width: nat)
    requires width > 0
    ensures forall k, c :: 0 <= k < |Chunks(txt, width)| && c in Chunks(txt, width)[k] ==> c in txt
    decreases |txt|
  {
    if |txt| > width {
      ChunksFromText(txt[width..], width);
      var cs := Chunks(txt, width);
      forall k, c | 0 <= k < |cs| && c in cs[k]
        ensures c in txt
      {
        if k > 0 {
          assert cs[k] == Chunks(txt[width..], width)[k - 1];
          assert c in txt[width..];
        } else {
          assert c in txt[..width];
        }
      }
    }
  }

  /** Removing the separator from a join of separator-free parts concatenates them. */
  lemma {:induction false} JoinRemove(parts: seq<string>)
    requires forall k, c :: 0 <= k < |parts| && c in parts[k] ==> c != '\n'
    ensures Remove(Join(parts, "\n"), '\n') == Concat(parts)
    decreases |parts|
  {
    if |parts| == 1 {
      RemoveAbsent(parts[0], '\n');
      assert Concat(parts) == parts[0] + Concat([]);
    } else if |parts| > 1 {
      var tail := parts[1..];
      assert forall k, c :: 0 <= k < |tail| && c in tail[k] ==> c != '\n' by {
        forall k, c | 0 <= k < |tail| && c in tail[k]
          ensures c != '\n'
        {
          assert tail[k] == parts[k + 1];
        }
      }
      var head, joined := parts[0], Join(tail, "\n");
      calc {
        Remove(Join(parts, "\n"), '\n');
        Remove((head + "\n") + joined, '\n');
        { RemoveAppend(head + "\n", joined, '\n'); }
        Remove(head + "\n", '\n') + Remove(joined, '\n');
        { RemoveAppend(head, "\n", '\n'); assert Remove("\n", '\n') == ""; }
        Remove(head, '\n') + Remove(joined, '\n');
        { RemoveAbsent(head, '\n'); JoinRemove(tail); }
        head + Concat(tail);
      }
    }
  }

  lemma {:induction false} RemoveAppend(a: string, b: string, c: char)
    ensures Remove(a + b, c) == Remove(a, c) + Remove(b, c)
    decreases |a|
  {
    if |a| > 0 {
      assert (a + b)[1..] == a[1..] + b;
      RemoveAppend(a[1..], b, c);
    } else {
      assert a + b == b;
    }
  }

  lemma {:induction false} RemoveAbsent(s: string, c: char)
    requires c !in s
    ensures Remove(s, c) == s
    decreases |s|
  {
    if |s| > 0 {
      RemoveAbsent(s[1..], c);
    }
  }
}

=== FILE: dh.dfy ===
/** The `DH` class of DHDemo.py: a party holding a private exponent, its public
    value `G^k mod bigPrime`, and the shared key computed from a peer's public value.
    The party's random bytes are a parameter instead of being read from the OS. */
module DiffieHellman {
  import opened Arith
  import opened Results
  import opened BigEndian
  import opened Digits
  import opened ModExp

  /** The 768-bit modulus `bigPrime`. */
  const BigPrime: nat := 0xde5dbace4cef238153419d79cb586c77150a717d113045c902413d28a52d3e251bdf0df3d120992edb7d48234ebc37bc597c1ba464aa1979021e93cf1828433bd1d1c8aaf8060c0d39daba46e0c27463c840041a5f19da2117b4aee3ea26215b

  /** The generator `G`. */
  const G: nat := 2

  /** Width in bytes of public values and shared keys. */
  const KeyBytes: nat := 96

  /** Number of random bytes read for a private key. */
  const PrivateKeyBytes: nat := 75

  /** `256^96`, written out: one followed by 192 hexadecimal zeros. */
  const KeySpace: nat := 0x1000000000000000000000000000000000000000000000000000000000000000000000000000000000000000000000000000000000000000000000000000000000000000000000000000000000000000000000000000000000000000000000000

  /** `256^96` is the written-out `KeySpace`, and `bigPrime` lies below it: every residue
      modulo `bigPrime` fits the 96 bytes `to_bytes` is asked for. */
  lemma KeySpaceIsPow()
    ensures Pow(256, KeyBytes) == KeySpace
    ensures BigPrime < KeySpace
  {
    Pow96(256);
  }

  /** `b^96` as the cube of `b` squared five times, for a symbolic base. */
  lemma Pow96(b: nat)
    ensures var x32 := Square(Square(Square(Square(Square(b)))));
      Pow(b, 96) == x32 * x32 * x32
  {
    var x2 := Square(b);
    var x4 := Square(x2);
    var x8 := Square(x4);
    var x16 := Square(x8);
    var x32 := Square(x16);
    calc {
      Pow(b, 96);
      { PowSquare(b, 48); }
      Pow(x2, 48);
      { PowSquare(x2, 24); }
      Pow(x4, 24);
      { PowSquare(x4, 12); }
      Pow(x8, 12);
      { PowSquare(x8, 6); }
      Pow(x16, 6);
      { PowSquare(x16, 3); }
      Pow(x32, 3);
      { PowCube(x32); }
      x32 * x32 * x32;
    }
  }


  /** A party: its private exponent `_priKy`, fixed when it is constructed. */
  datatype Party = Party(priKy: nat)

  /** `DH()`: the private key is the big-endian value of 75 random bytes, supplied here
      by the caller. It lies below `256^75`, and those bytes are its 75-byte encoding. */
  function NewParty(rnd: seq<byte>): (d: Party)
    requires |rnd| == PrivateKeyBytes
    ensures d.priKy < Pow(256, PrivateKeyBytes)
    ensures ToBytes(d.priKy, PrivateKeyBytes) == Ok(rnd)
  {
    ToBytesFromBytes(rnd);
    Party(FromBytes(rnd))
  }

  /** `pubKey()`: `G^priKy mod bigPrime` as 96 big-endian bytes. The `to_bytes` call
      never overflows, and the bytes read back as exactly `G^priKy mod bigPrime`. */
  function PubKey(d: Party): (r: Result<seq<byte>>)
    ensures r.Ok? && |r.value| == KeyBytes
    ensures FromBytes(r.value) == Pow(G, d.priKy) % BigPrime
    ensures FromBytes(r.value) < BigPrime
  {
    KeySpaceIsPow();
    ToBytes(ModPow(G, d.priKy, BigPrime), KeyBytes)
  }

  /** `comKey(pubKy2)`: the peer's bytes, of any length and unchecked, are read as a
      big-endian integer, raised to `priKy` modulo `bigPrime`, and written as 96 bytes.
      This never overflows, whatever the peer sends. */
  function ComKey(d: Party, pubKy2: seq<byte>): (r: Result<seq<byte>>)
    ensures r.Ok? && |r.value| == KeyBytes
    ensures FromBytes(r.value) == Pow(FromBytes(pubKy2), d.priKy) % BigPrime
    ensures FromBytes(r.value) < BigPrime
  {
    KeySpaceIsPow();
    ToBytes(ModPow(FromBytes(pubKy2), d.priKy, BigPrime), KeyBytes)
  }

  /** The check the demo makes: whatever the two private keys, Alice's copy of the shared
      key computed from Bob's public value equals Bob's copy computed from Alice's, byte
      for byte. Both are `G^(a*b) mod bigPrime` in 96 bytes. */
  lemma SharedKeysAgree(alice: Party, bob: Party)
    ensures ComKey(alice, PubKey(bob).value) == ComKey(bob, PubKey(alice).value)
  {
    var a, b := alice.priKy, bob.priKy;
    var pa, pb := PubKey(alice).value, PubKey(bob).value;
    assert FromBytes(pa) == ModPow(G, a, BigPrime);
    assert FromBytes(pb) == ModPow(G, b, BigPrime);
    Agreement(G, a, b, BigPrime);
  }

  /** Proof helper: the exponent both copies of the shared key use, the product of the two
      private keys, named so that `SharedKeyValue`'s ensures stays small. */
  function SharedExponent(alice: Party, bob: Party): nat
  {
    alice.priKy * bob.priKy
  }

  /** The shared key is `G^(a*b) mod bigPrime` for the two private keys `a` and `b`. */
  lemma SharedKeyValue(alice: Party, bob: Party)
    ensures FromBytes(ComKey(alice, PubKey(bob).value).value) == Pow(G, SharedExponent(alice, bob)) % BigPrime
  {
    var a, b := alice.priKy, bob.priKy;
    var y := FromBytes(PubKey(bob).value);
    assert y == ModPow(G, b, BigPrime);
    assert FromBytes(ComKey(alice, PubKey(bob).value).value) == ModPow(y, a, BigPrime);
    ExponentsMultiplyCommuted(G, a, b, BigPrime);
  }

  /** The modulus has 768 significant bits, so it takes exactly 96 bytes: the public
      value width is `bytLen(bigPrime)`. */
  lemma BigPrimeSize()
    ensures BitLen(BigPrime) == 768
    ensures BytLen(BigPrime) == KeyBytes
  {
    var top := KeySpace / 256;
    var half := KeySpace / 2;
    KeySpaceIsPow();
    assert Pow(256, 95) == top by {
      assert Pow(256, 96) == 256 * Pow(256, 95);
    }
    assert top <= BigPrime < KeySpace;
    PowBracketUnique(256, BigPrime, BytLen(BigPrime), KeyBytes);
    assert Pow(2, 768) == KeySpace by {
      assert Pow(2, 8) == 256;
      PowMul(2, 8, 96);
    }
    assert Pow(2, 767) == half by {
      assert Pow(2, 768) == 2 * Pow(2, 767);
    }
    assert half <= BigPrime;
    PowBracketUnique(2, BigPrime, BitLen(BigPrime), 768);
  }

}

=== FILE: digits.dfy ===
/** The integer helpers of DHDemo.py: `bitLen`, `bytLen` and `bigInt2Bytes`.
    `bitLen` and `bytLen` measure the strings Python's `bin` and `hex` print, so
    those strings are modelled too. All helpers are for non-negative integers. */
module Digits {
  import opened Arith
  import opened Results
  import opened BigEndian

  const DigitChars: string := "0123456789abcdef"

  /** Python's lower-case digit for a value below 16. */
  function DigitChar(d: nat): char
    requires d < 16
  {
    DigitChars[d]
  }

  /** The value of a digit character: its position in `0-9a-f`. */
  function DigitValue(c: char): nat
  {
    if '0' <= c <= '9' then c as nat - '0' as nat
    else if 'a' <= c <= 'f' then c as nat - 'a' as nat + 10
    else 0
  }

  /** The digits of `n` in `base`, most significant first, without leading zeros;
      zero is the single digit `0`. */
  function ToDigits(n: nat, base: nat): (s: string)
    requires 2 <= base <= 16
    ensures |s| >= 1
    ensures s[0] == '0' <==> n == 0
    ensures forall i :: 0 <= i < |s| ==> s[i] in DigitChars[..base]
    decreases n
  {
    if n < base then
      assert DigitChars[0] == '0';
      assert DigitChars[n] in DigitChars[..base];
      [DigitChar(n)]
    else
      DivSmaller(n, base);
      var init := ToDigits(n / base, base);
      var s := init + [DigitChar(n % base)];
      assert s[0] == init[0];
      assert DigitChars[n % base] in DigitChars[..base];
      s
  }

  /** Reads a string of digits in `base`, most significant first. */
  function FromDigits(s: string, base: nat): nat
    decreases |s|
  {
    if |s| == 0 then 0
    else FromDigits(s[..|s| - 1], base) * base + DigitValue(s[|s| - 1])
  }

  lemma DigitValueOfChar(d: nat)
    requires d < 16
    ensures DigitValue(DigitChar(d)) == d
  {
  }

  /** Reading the digits back gives the number they were written for. */
  lemma {:induction false} DigitsRoundTrip(n: nat, base: nat)
    requires 2 <= base <= 16
    ensures FromDigits(ToDigits(n, base), base) == n
    decreases n
  {
    if n < base {
      DigitValueOfChar(n);
      assert FromDigits(ToDigits(n, base), base) == FromDigits([], base) * base + n;
    } else {
      var q, r := n / base, n % base;
      DivSmaller(n, base);
      var s := ToDigits(n, base);
      assert s == ToDigits(q, base) + [DigitChar(r)];
      assert s[..|s| - 1] == ToDigits(q, base);
      DigitsRoundTrip(q, base);
      DigitValueOfChar(r);
      assert FromDigits(s, base) == q * base + r;
    }
  }

  /** The digit count `k` of `n` is the least `k >= 1` with `n < base^k`. */
  lemma {:induction false} DigitCount(n: nat, base: nat)
    requires 2 <= base <= 16
    ensures n < Pow(base, |ToDigits(n, base)|)
    ensures |ToDigits(n, base)| == 1 || Pow(base, |ToDigits(n, base)| - 1) <= n
    decreases n
  {
    if n < base {
      assert Pow(base, 1) == base;
    } else {
      var q, r := n / base, n % base;
      DivSmaller(n, base);
      DigitCount(q, base);
      var k := |ToDigits(q, base)|;
      assert |ToDigits(n, base)| == k + 1;
      var lo := if k == 1 then 1 else Pow(base, k - 1);
      ShiftBounds(n, q, r, base, lo, Pow(base, k));
      assert Pow(base, k + 1) == base * Pow(base, k);
      assert Pow(base, k) == base * lo by {
        if k == 1 {
          assert Pow(base, 0) == 1;
        }
      }
    }
  }

  /** Appending one digit `r` to a number `q` in `lo <= q < hi` gives a number in
      `base * lo <= n < base * hi`. */
  lemma ShiftBounds(n: nat, q: nat, r: nat, base: nat, lo: nat, hi: nat)
    requires n == q * base + r && r < base
    requires lo <= q < hi
    ensures base * lo <= n < base * hi
  {
    MulLe(lo, q, base);
    MulLe(q + 1, hi, base);
  }

  /** `bin(n)`: the prefix `0b`, then the binary digits of `n` with no leading zero. */
  function Bin(n: nat): (r: string)
    ensures |r| >= 3 && r[..2] == "0b"
    ensures FromDigits(r[2..], 2) == n
    ensures r[2] == '0' <==> n == 0
    ensures forall i :: 2 <= i < |r| ==> r[i] in "01"
  {
    var r := "0b" + ToDigits(n, 2);
    assert DigitChars[..2] == "01";
    DigitsRoundTrip(n, 2);
    assert r[2..] == ToDigits(n, 2);
    r
  }

  /** `hex(n)`: the prefix `0x`, then the lower-case hexadecimal digits of `n` with no
      leading zero. */
  function Hex(n: nat): (r: string)
    ensures |r| >= 3 && r[..2] == "0x"
    ensures FromDigits(r[2..], 16) == n
    ensures r[2] == '0' <==> n == 0
    ensures forall i :: 2 <= i < |r| ==> r[i] in DigitChars
  {
    var r := "0x" + ToDigits(n, 16);
    assert DigitChars[..16] == DigitChars;
    DigitsRoundTrip(n, 16);
    assert r[2..] == ToDigits(n, 16);
    r
  }

  /** `bitLen(n) = len(bin(n)) - 2`: the number of binary digits of `n`, which is 1
      for zero and otherwise the `k` with `2^(k-1) <= n < 2^k`. */
  function BitLen(n: nat): (k: nat)
    ensures k >= 1
    ensures n < Pow(2, k)
    ensures k == 1 || Pow(2, k - 1) <= n
  {
    DigitCount(n, 2);
    |Bin(n)| - 2
  }

  /** `bytLen(n) = (len(hex(n)) - 1) // 2`: half the hex digit count rounded up, which
      is 1 for zero and otherwise the `k` with `256^(k-1) <= n < 256^k`. */
  function BytLen(n: nat): (k: nat)
    ensures k >= 1
    ensures n < Pow(256, k)
    ensures k == 1 || Pow(256, k - 1) <= n
  {
    var d := |ToDigits(n, 16)|;
    var k := (|Hex(n)| - 1) / 2;
    assert k == (d + 1) / 2;
    BytLenBounds(n, d, k);
    k
  }

  lemma BytLenBounds(n: nat, d: nat, k: nat)
    requires d == |ToDigits(n, 16)| && k == (d + 1) / 2
    ensures k >= 1
    ensures n < Pow(256, k)
    ensures k == 1 || Pow(256, k - 1) <= n
  {
    DigitCount(n, 16);
    assert Pow(16, 2) == 256;
    PowMul(16, 2, k);
    PowMonotone(16, d, 2 * k);
    if k > 1 {
      PowMul(16, 2, k - 1);
      PowMonotone(16, 2 * (k - 1), d - 1);
    }
  }

  /** `bigInt2Bytes(n) = n.to_bytes(bytLen(n), "big")`: never overflows, has `bytLen(n)`
      bytes, reads back as `n`, and has no leading zero byte unless `n` is zero. */
  function BigIntToBytes(n: nat): (r: Result<seq<byte>>)
    ensures r.Ok?
    ensures |r.value| == BytLen(n) && FromBytes(r.value) == n
    ensures n > 0 ==> r.value[0] != 0
  {
    var r := ToBytes(n, BytLen(n));
    if n > 0 then LeadingByteNonZero(n, r.value); r else r
  }

  /** A `bytLen(n)`-byte encoding of a positive `n` cannot start with a zero byte. */
  lemma LeadingByteNonZero(n: nat, s: seq<byte>)
    requires n > 0 && |s| == BytLen(n) && FromBytes(s) == n
    ensures s[0] != 0
  {
    if s[0] == 0 {
      LeadingZero(s);
      assert false;
    }
  }
}

=== FILE: modexp.dfy ===
/** Three-argument `pow(b, e, m)`: modular exponentiation by repeated squaring,
    proved equal to the reference power reduced modulo `m`. */
module ModExp {
  import opened Arith

  /** `pow(b, e, m)` for a positive modulus: the result is `b^e mod m`. */
  function ModPow(b: nat, e: nat, m: nat): (r: nat)
    requires m > 0
    ensures r < m
    ensures r == Pow(b, e) % m
    decreases e
  {
    if e == 0 then
      1 % m
    else
      var h := ModPow(b, e / 2, m);
      var sq := (h * h) % m;
      SquareStep(b, e, m, h);
      if e % 2 == 0 then sq else (sq * (b % m)) % m
  }

  /** One step of square-and-multiply: the square of `b^(e/2) mod m`, times `b`
      again when `e` is odd, is `b^e mod m`. */
  lemma SquareStep(b: nat, e: nat, m: nat, h: nat)
    requires m > 0 && h == Pow(b, e / 2) % m
    ensures e % 2 == 0 ==> (h * h) % m == Pow(b, e) % m
    ensures e % 2 == 1 ==> (((h * h) % m) * (b % m)) % m == Pow(b, e) % m
  {
    var half := Pow(b, e / 2);
    PowAdd(b, e / 2, e / 2);
    MulMod(half, half, m);
    assert (h * h) % m == Pow(b, e / 2 + e / 2) % m;
    if e % 2 == 1 {
      var sq := Pow(b, e / 2 + e / 2);
      MulMod(sq, b, m);
      ModMod(sq, m);
      PowAdd(b, e / 2 + e / 2, 1);
      assert e == e / 2 + e / 2 + 1;
      assert Pow(b, 1) == b;
    } else {
      assert e == e / 2 + e / 2;
    }
  }

  /** Diffie-Hellman agreement over any modulus `p > 0`: raising `g^a mod p` to
      `b` gives the same residue as raising `g^b mod p` to `a`. Neither primality
      of `p` nor any property of `g` is needed. */
  lemma Agreement(g: nat, a: nat, b: nat, p: nat)
    requires p > 0
    ensures ModPow(ModPow(g, a, p), b, p) == ModPow(ModPow(g, b, p), a, p)
  {
    ExponentsMultiply(g, a, b, p);
    ExponentsMultiply(g, b, a, p);
    assert a * b == b * a;
  }

  /** Raising `g^a mod p` to `b` modulo `p` is raising `g` to `a*b`. */
  lemma ExponentsMultiply(g: nat, a: nat, b: nat, p: nat)
    requires p > 0
    ensures ModPow(ModPow(g, a, p), b, p) == Pow(g, a * b) % p
  {
    PowMod(Pow(g, a), b, p);
    PowMul(g, a, b);
  }

  /** The same with the two exponents in the other order: the party holding `a` raises
      the peer's `g^b mod p` and still reaches `g^(a*b) mod p`. */
  lemma ExponentsMultiplyCommuted(g: nat, a: nat, b: nat, p: nat)
    requires p > 0
    ensures ModPow(ModPow(g, b, p), a, p) == Pow(g, a * b) % p
  {
    ExponentsMultiply(g, b, a, p);
    assert b * a == a * b;
  }
}

=== FILE: results.dfy ===
/** The two Python exceptions the modelled code can raise, and a result type
    that carries either a value or the exception raised instead. */
module Results {

  datatype Error =
    | OverflowError  // `int.to_bytes` given a value that does not fit the requested width
    | ValueError     // `range` given a step of zero

  datatype Result<+T> = Ok(value: T) | Err(error: Error)
}
